=== FILE: README.md ===
# DCMotor in Dafny

A model of the Arduino DC-motor header `DCMotor/DCMotor.hpp`. The header is a
small command-driven state machine. A motor records a speed (a `uint8_t`) and
the last `Command` (RELEASE, BRAKE, FORWARD, BACKWARD). `run(speed, command)`
dispatches to one of four primitives. Three wiring classes implement the
primitives: `DCMotorSinglePWM` (a direction pin and a PWM pin), `DCMotorTwoPWM`
(two PWM pins) and `DCMotorTB6612` (two direction pins and a shared PWM pin).

In the model a driver is a closed datatype of three variants carrying their pin
numbers. A primitive is a pure function from the driver (and a speed) to the
recorded state plus the ordered list of I/O calls it makes (`pinMode`,
`digitalWrite`, `analogWrite` as trace entries). A trace's meaning is the
signal it leaves on each pin (`PinTrace.Apply`). The per-wiring pin patterns
are stated a second time, declaratively and pin by pin (`PinPattern.Shows`).
The model proves that the ordered writes of every call realise that pattern
and that, after the first call, the pattern reads back (`PinPattern.Decode`)
as exactly the recorded state. A freshly constructed motor is the exception:
it records RELEASE, but construction only configures the pins, so none of
them shows a pattern yet (`PinPattern.ConstructNotShown`). A
motor's lifetime is a sequence of `run` calls (`Session.Replay`).

Files:
- `types.dfy` (`MotorTypes`): bytes, pins, levels, commands, state, writes.
- `trace.dfy` (`PinTrace`): replaying writes over a pin image.
- `drivers.dfy` (`Topology`): the three wirings and their primitives.
- `motor.dfy` (`DCMotor`): construction, `run`, the accessors.
- `pattern.dfy` (`PinPattern`): pin patterns, reading them back, agreement with the writes.
- `session.dfy` (`Session`): sequences of calls.

Two behaviours of the code are kept as written:
- The single-PWM `moveBackward(s)` writes and stores `255 - s`, not `s`. Since `s`
  is a `uint8_t`, `255 - s` is always in 0..255, so nothing wraps.
- The TB6612 `brake` writes only the two direction pins HIGH and leaves the
  PWM pin unwritten; the model adds no PWM write. One consequence is proved:
  after a TB6612 brake the PWM pin still carries what
  the previous call left there. So for this wiring the recorded
  (speed, command) does not determine every pin's output
  (`Session.Tb6612BrakeStateHidesPwm`). For the other two wirings it does,
  once the first call has been made (`Session.ReplayPinsDetermined`): a
  freshly constructed motor records RELEASE without having driven any pin.

## Model

| member | source | states |
|---|---|---|
| `Topology.Release` | DCMotor/DCMotor.hpp:66-149 | Every wiring records (0, RELEASE), writes only levels, only to its own pins, and drives every one of its pins. Every release write is LOW, except the TB6612's last write, which drives the PWM pin HIGH. The single-PWM and TB6612 wirings write the direction pin(s) first and the PWM pin last. |
| `Topology.Brake` | DCMotor/DCMotor.hpp:73-156 | Every wiring records (0, BRAKE) and every brake write drives a pin HIGH. Single- and two-PWM drive both pins, and single-PWM writes its direction pin before its PWM pin. TB6612 drives exactly its two direction pins and never the PWM pin. |
| `Topology.MoveForward` | DCMotor/DCMotor.hpp:80-164 | Records (speed, FORWARD). Every write but the last goes to a forward direction pin (single-PWM direction pin, two-PWM input 1, TB6612 both direction pins) as a level. The last write is the one duty cycle, to the forward duty pin, equal to the stored speed. Every pin of the driver is driven. |
| `Topology.MoveBackward` | DCMotor/DCMotor.hpp:87-172 | Records BACKWARD, with speed `255 - s` for the single-PWM wiring and `s` for the other two. Every write but the last is a level on a backward direction pin (two-PWM: input 2). The last write is the one duty cycle, to the backward duty pin, equal to the stored speed. |
| `DCMotor.Construct` | DCMotor/DCMotor.hpp:21-141 | Exists exactly when the PWM pins are PWM-capable. The motor starts at speed 0 and RELEASE, and each pin is configured as an output, in template order, driving nothing. |
| `DCMotor.Run` | DCMotor/DCMotor.hpp:31-46 | Records the command issued. Speed is 0 for RELEASE/BRAKE, the argument for FORWARD, and for BACKWARD the argument or (single-PWM) its complement. Moves write only direction pins before the final duty write to the duty pin. Single-PWM release/brake and TB6612 release write the PWM pin last, after the direction pins. Idle commands write levels only, and only the motor's pins are written. |
| `DCMotor.IdleIgnoresSpeed` | DCMotor/DCMotor.hpp:31-46 | For RELEASE and BRAKE the state and writes of `run` do not depend on the speed argument. |
| `DCMotor.RunForgetsPriorState` | DCMotor/DCMotor.hpp:66-172 | The writes and new state of a call do not depend on the state the motor was in. |
| `DCMotor.ReleaseIdempotent` | DCMotor/DCMotor.hpp:66-149 | Releasing twice repeats the same writes and the same recorded state. |
| `DCMotor.SinglePwmBackwardComplement` | DCMotor/DCMotor.hpp:87-92 | Single-PWM backward writes duty `255 - s` and records `255 - s`, which never equals `s`. |
| `DCMotor.Tb6612Scenario` | DCMotor/DCMotor.hpp:133-164 | TB6612 on pins 2, 3, 9: construction configures 2, 3, 9; forward at 200 writes 2 LOW, 3 HIGH, duty 200 on 9; brake then writes 2 HIGH, 3 HIGH and nothing on 9. |
| `PinPattern.DecodeInverse` | DCMotor/DCMotor.hpp:57-173 | Reading the pins back gives state `st` if and only if the pins show the wiring's pattern for `st`. |
| `PinPattern.ShowsDeterminesPins` | DCMotor/DCMotor.hpp:57-173 | Except for a braking TB6612, the pattern of a state fixes the signal on every pin of the driver. |
| `PinPattern.ShowsUnique` | DCMotor/DCMotor.hpp:57-173 | No pin image shows two different states of the same wiring. |
| `PinPattern.ReleaseShows` | DCMotor/DCMotor.hpp:66-149 | After a release, from any prior image: single-PWM both pins LOW, two-PWM both pins LOW, TB6612 both direction pins LOW and the PWM pin HIGH. |
| `PinPattern.BrakeShows` | DCMotor/DCMotor.hpp:73-156 | After a brake, from any prior image: single- and two-PWM both pins HIGH, TB6612 both direction pins HIGH. |
| `PinPattern.ForwardShows` | DCMotor/DCMotor.hpp:80-164 | After a forward move at `s`: single-PWM direction LOW and duty `s`; two-PWM pin 1 LOW and duty `s` on pin 2; TB6612 pin 1 LOW, pin 2 HIGH, duty `s`. |
| `PinPattern.BackwardShows` | DCMotor/DCMotor.hpp:87-172 | After a backward move: single-PWM direction HIGH and duty equal to the stored `255 - s`; two-PWM pin 2 LOW and duty `s` on pin 1; TB6612 pin 1 HIGH, pin 2 LOW, duty `s`. |
| `PinPattern.RunShows` | DCMotor/DCMotor.hpp:31-172 | From any prior pin image, the writes of any call leave the pins showing the state the call records. |
| `PinPattern.RunDecodes` | DCMotor/DCMotor.hpp:48-54 | After any call, reading the pins back gives exactly what the accessors report. |
| `PinPattern.ConstructNotShown` | DCMotor/DCMotor.hpp:21-141 | A constructed motor records (0, RELEASE), yet construction drives no pin, so the pins read back as no state at all until the first call. |
| `PinPattern.Tb6612BrakeKeepsPwm` | DCMotor/DCMotor.hpp:151-156 | A TB6612 brake leaves the PWM pin's signal (or its absence) unchanged. |
| `Session.Replay` | DCMotor/DCMotor.hpp:15-55 | A sequence of `run` calls keeps the wiring and writes only the motor's pins. The final state is that of the last call, or unchanged when there are none. |
| `Session.ReplayAppend` | DCMotor/DCMotor.hpp:31-46 | Running two call sequences one after the other equals running their concatenation, writes included. |
| `Session.ReplayConsistent` | DCMotor/DCMotor.hpp:17-18 | After any nonempty sequence of calls, a released or braking motor records speed 0. |
| `Session.LifetimeConsistent` | DCMotor/DCMotor.hpp:17-21 | From construction through any sequence of calls, the empty one included, a released or braking motor records speed 0. |
| `Session.ReplayShows` | DCMotor/DCMotor.hpp:31-172 | After any nonempty sequence of calls, from any prior pin image, the pins show the recorded state. |
| `Session.ReplayDecodes` | DCMotor/DCMotor.hpp:48-54 | After any nonempty sequence of calls, reading the pins back gives exactly the recorded speed and command. |
| `Session.ReplayPinsDetermined` | DCMotor/DCMotor.hpp:57-173 | Two nonempty histories on the same wiring ending in the same state leave identical signals on every pin, except for a braking TB6612. |
| `Session.Tb6612BrakeRemembersPwm` | DCMotor/DCMotor.hpp:151-156 | A TB6612 whose last call is BRAKE carries on its PWM pin what the earlier calls left there. |
| `Session.Tb6612CallThenBrake` | DCMotor/DCMotor.hpp:143-172 | A TB6612 that makes a non-brake call and then brakes records (0, BRAKE) and keeps on its PWM pin the signal the first call left. |
| `Session.Tb6612BrakeStateHidesPwm` | DCMotor/DCMotor.hpp:143-164 | Two TB6612 histories both ending in (0, BRAKE) leave the PWM pin pulsing at 200 in one and HIGH in the other. |

## Left out

- DCMotor.Run: `Command` has `uint8_t` as its underlying type, so a cast byte such as `static_cast<Command>(7)` is a valid `Command`. `run` then matches no case of its switch, which has no `default`, and does nothing: no write, no state change. The model's `Command` has only the four enumerators, so this silent no-op is not modelled.
- Electrical behaviour of the pins (`pinMode`, `digitalWrite`, `analogWrite`): these are calls into the Arduino core. They appear only as trace entries. A pin's meaning is the last signal commanded; `analogWrite(p, 0)` and `digitalWrite(p, LOW)` are kept distinct.
- `static_assert(digitalPinHasPWM(...))`: a compile-time board query. It is modelled as a set of PWM-capable pins passed to `DCMotor.Construct`; a failed assertion gives `None`.
- Virtual dispatch and template pin parameters: replaced by the closed `Topology.Driver` datatype carrying the pins.
- The accessors `cuurentSpeed` and `currentCommand` are field reads (`DCMotor.CurrentSpeed`, `DCMotor.CurrentCommand`) and carry no contract of their own.
- Conversion of a caller's wider integer to the `uint8_t` parameters happens before the header's code runs; speeds are `Byte` (0..255) throughout.
- PWM timing, short-through, standby semantics: not stated by the code.
- PinPattern.RunShows: assumes the driver's pins are pairwise distinct. The code does not check this; with a repeated pin a later write overwrites an earlier one and the pattern need not hold. The same hypothesis is on `PinPattern.ReleaseShows`, `PinPattern.BrakeShows`, `PinPattern.ForwardShows`, `PinPattern.BackwardShows`, `PinPattern.RunDecodes`, `PinPattern.Tb6612BrakeKeepsPwm` and the `Session` lemmas about pins.

=== FILE: drivers.dfy ===
/** The three wiring topologies and their four primitives. Each primitive
    turns a command (and, for a move, a speed) into the ordered pin writes of
    its wiring scheme and the state the motor records afterwards. A primitive
    reads only the driver's pins, never the motor's previous state. */
module Topology {
  import opened MotorTypes
  import opened PinTrace

  /** A driver bound to its pins, one variant per wiring class. */
  datatype Driver =
    | SinglePwm(dir: Pin, pwm: Pin)             // DCMotorSinglePWM<digitalPin, PWMPin>
    | TwoPwm(in1: Pin, in2: Pin)                // DCMotorTwoPWM<InputPin1, InputPin2>
    | Tb6612(dir1: Pin, dir2: Pin, pwm: Pin)    // DCMotorTB6612<digitalPin1, digitalPin2, PWMPin>

  /** The driver's pins in template-argument order. */
  function Pins(d: Driver): seq<Pin> {
    match d
    case SinglePwm(dir, pwm) => [dir, pwm]
    case TwoPwm(in1, in2) => [in1, in2]
    case Tb6612(dir1, dir2, pwm) => [dir1, dir2, pwm]
  }

  /** The driver's pins as a set. `Pins` keeps template order, which
      construction and `DistinctPins` need; this set display is what the
      write-trace contracts compare against, and the two ensures tie it to
      `Pins`. */
  function PinSet(d: Driver): (r: set<Pin>)
    ensures forall i | 0 <= i < |Pins(d)| :: Pins(d)[i] in r
    ensures forall p | p in r :: p in Pins(d)
  {
    match d
    case SinglePwm(dir, pwm) => {dir, pwm}
    case TwoPwm(in1, in2) => {in1, in2}
    case Tb6612(dir1, dir2, pwm) => {dir1, dir2, pwm}
  }

  /** No two template arguments name the same pin. */
  predicate DistinctPins(d: Driver) {
    forall i, j | 0 <= i < j < |Pins(d)| :: Pins(d)[i] != Pins(d)[j]
  }

  /** The pins whose PWM capability the class asserts at compile time. */
  function PwmPins(d: Driver): set<Pin> {
    match d
    case SinglePwm(_, pwm) => {pwm}
    case TwoPwm(in1, in2) => {in1, in2}
    case Tb6612(_, _, pwm) => {pwm}
  }

  /** The result of one primitive: the recorded state and the writes made. */
  datatype Effect = Effect(state: State, writes: seq<Write>)

  /** A move's trace: level writes only, then one duty-cycle write, last. */
  predicate MoveOrdered(ws: seq<Write>) {
    && |ws| >= 2
    && ws[|ws| - 1].Analog?
    && forall i | 0 <= i < |ws| - 1 :: ws[i].Digital?
  }

  /** The pins that set the direction of a move in the given sense: the
      direction pin, the inactive input of a two-PWM bridge, or the two
      direction pins of a TB6612. */
  function DirPins(d: Driver, forward: bool): set<Pin> {
    match d
    case SinglePwm(dir, _) => {dir}
    case TwoPwm(in1, in2) => if forward then {in1} else {in2}
    case Tb6612(dir1, dir2, _) => {dir1, dir2}
  }

  /** The direction rule: every write but the last goes to a direction pin
      in `dirs`, and the last write goes to the magnitude pin `last`, so
      no output is applied before the direction is set. */
  predicate DirectionFirst(ws: seq<Write>, dirs: set<Pin>, last: Pin) {
    && |ws| >= 1
    && ws[|ws| - 1].pin == last
    && forall i | 0 <= i < |ws| - 1 :: ws[i].pin in dirs
  }

  /** Every write of the trace is a level write to one of the driver's pins. */
  predicate LevelsOnly(d: Driver, ws: seq<Write>) {
    forall i | 0 <= i < |ws| :: ws[i].Digital? && ws[i].pin in PinSet(d)
  }

  /** The pin that carries the duty cycle for a move in the given sense. */
  function DutyPin(d: Driver, forward: bool): Pin {
    match d
    case SinglePwm(_, pwm) => pwm
    case TwoPwm(in1, in2) => if forward then in2 else in1
    case Tb6612(_, _, pwm) => pwm
  }

  /** De-energise the motor with the wiring's release pattern. */
  function Release(d: Driver): (r: Effect)
    ensures r.state == State(0, RELEASE)
    ensures LevelsOnly(d, r.writes)
    ensures d.SinglePwm? ==> DirectionFirst(r.writes, {d.dir}, d.pwm)
    ensures d.Tb6612? ==> DirectionFirst(r.writes, {d.dir1, d.dir2}, d.pwm)
    ensures !d.Tb6612? ==> forall i | 0 <= i < |r.writes| :: r.writes[i].level == LOW
    ensures d.Tb6612? ==> r.writes[|r.writes| - 1].level == HIGH
    ensures d.Tb6612? ==> forall i | 0 <= i < |r.writes| - 1 :: r.writes[i].level == LOW
    ensures Driven(r.writes) == PinSet(d)
  {
    match d
    case SinglePwm(dir, pwm) =>
      DrivenPair(Digital(dir, LOW), Digital(pwm, LOW));
      Effect(State(0, RELEASE), [Digital(dir, LOW), Digital(pwm, LOW)])
    case TwoPwm(in1, in2) =>
      DrivenPair(Digital(in1, LOW), Digital(in2, LOW));
      Effect(State(0, RELEASE), [Digital(in1, LOW), Digital(in2, LOW)])
    case Tb6612(dir1, dir2, pwm) =>
      DrivenTriple(Digital(dir1, LOW), Digital(dir2, LOW), Digital(pwm, HIGH));
      Effect(State(0, RELEASE), [Digital(dir1, LOW), Digital(dir2, LOW), Digital(pwm, HIGH)])
  }

  /** Hold the windings with the wiring's brake pattern. Every brake write
      drives its pin HIGH; the TB6612 wiring leaves its PWM pin alone. */
  function Brake(d: Driver): (r: Effect)
    ensures r.state == State(0, BRAKE)
    ensures LevelsOnly(d, r.writes)
    ensures d.SinglePwm? ==> DirectionFirst(r.writes, {d.dir}, d.pwm)
    ensures forall i | 0 <= i < |r.writes| :: r.writes[i].level == HIGH
    ensures d.Tb6612? ==> Driven(r.writes) == {d.dir1, d.dir2}
    ensures !d.Tb6612? ==> Driven(r.writes) == PinSet(d)
  {
    match d
    case SinglePwm(dir, pwm) =>
      DrivenPair(Digital(dir, HIGH), Digital(pwm, HIGH));
      Effect(State(0, BRAKE), [Digital(dir, HIGH), Digital(pwm, HIGH)])
    case TwoPwm(in1, in2) =>
      DrivenPair(Digital(in1, HIGH), Digital(in2, HIGH));
      Effect(State(0, BRAKE), [Digital(in1, HIGH), Digital(in2, HIGH)])
    case Tb6612(dir1, dir2, pwm) =>
      DrivenPair(Digital(dir1, HIGH), Digital(dir2, HIGH));
      Effect(State(0, BRAKE), [Digital(dir1, HIGH), Digital(dir2, HIGH)])
  }

  /** Drive forward at `speed`: direction levels first, then the duty cycle,
      which equals the stored speed. */
  function MoveForward(d: Driver, speed: Byte): (r: Effect)
    ensures r.state == State(speed, FORWARD)
    ensures MoveOrdered(r.writes)
    ensures DirectionFirst(r.writes, DirPins(d, true), DutyPin(d, true))
    ensures r.writes[|r.writes| - 1] == Analog(DutyPin(d, true), speed)
    ensures Driven(r.writes) == PinSet(d)
  {
    match d
    case SinglePwm(dir, pwm) =>
      DrivenPair(Digital(dir, LOW), Analog(pwm, speed));
      Effect(State(speed, FORWARD), [Digital(dir, LOW), Analog(pwm, speed)])
    case TwoPwm(in1, in2) =>
      DrivenPair(Digital(in1, LOW), Analog(in2, speed));
      Effect(State(speed, FORWARD), [Digital(in1, LOW), Analog(in2, speed)])
    case Tb6612(dir1, dir2, pwm) =>
      DrivenTriple(Digital(dir1, LOW), Digital(dir2, HIGH), Analog(pwm, speed));
      Effect(State(speed, FORWARD), [Digital(dir1, LOW), Digital(dir2, HIGH), Analog(pwm, speed)])
  }

  /** Drive backward at `speed`: direction levels first, then the duty cycle.
      The single-PWM wiring writes and stores the complement `255 - speed`;
      the other two store `speed` itself. Either way the duty written equals
      the speed stored. */
  function MoveBackward(d: Driver, speed: Byte): (r: Effect)
    ensures r.state.command == BACKWARD
    ensures r.state.speed == if d.SinglePwm? then 255 - speed else speed
    ensures MoveOrdered(r.writes)
    ensures DirectionFirst(r.writes, DirPins(d, false), DutyPin(d, false))
    ensures r.writes[|r.writes| - 1] == Analog(DutyPin(d, false), r.state.speed)
    ensures Driven(r.writes) == PinSet(d)
  {
    match d
    case SinglePwm(dir, pwm) =>
      DrivenPair(Digital(dir, HIGH), Analog(pwm, 255 - speed));
      Effect(State(255 - speed, BACKWARD), [Digital(dir, HIGH), Analog(pwm, 255 - speed)])
    case TwoPwm(in1, in2) =>
      DrivenPair(Digital(in2, LOW), Analog(in1, speed));
      Effect(State(speed, BACKWARD), [Digital(in2, LOW), Analog(in1, speed)])
    case Tb6612(dir1, dir2, pwm) =>
      DrivenTriple(Digital(dir1, HIGH), Digital(dir2, LOW), Analog(pwm, speed));
      Effect(State(speed, BACKWARD), [Digital(dir1, HIGH), Digital(dir2, LOW), Analog(pwm, speed)])
  }
}

=== FILE: motor.dfy ===
/** The motor interface: construction, the exhaustive command dispatch `run`
    and the two accessors, over a driver bound to its pins. */
module DCMotor {
  import opened MotorTypes
  import opened PinTrace
  import opened Topology

  /** A constructed motor: its wiring and its recorded state. */
  datatype Motor = Motor(driver: Driver, state: State)

  /** A motor after a call, with the writes the call made, in order. */
  datatype Outcome = Outcome(motor: Motor, writes: seq<Write>)

  /** The state every motor starts in. */
  const Initial := State(0, RELEASE)

  /** Construct a driver: the PWM pins must be PWM-capable on the board
      (`capable`), otherwise the class does not compile (`None`). Each pin is
      configured as an output, in template-argument order, and the motor
      starts released at speed 0. */
  function Construct(d: Driver, capable: set<Pin>): (r: Option<Outcome>)
    ensures r.Some? <==> PwmPins(d) <= capable
    ensures r.Some? ==> r.value.motor.driver == d
    ensures r.Some? ==> r.value.motor.state.speed == 0 && r.value.motor.state.command == RELEASE
    ensures r.Some? ==> |r.value.writes| == |Pins(d)|
    ensures r.Some? ==> forall i | 0 <= i < |Pins(d)| :: r.value.writes[i] == ConfigureOutput(Pins(d)[i])
    ensures r.Some? ==> Driven(r.value.writes) == {}
  {
    if PwmPins(d) <= capable then
      var setup := seq(|Pins(d)|, i requires 0 <= i < |Pins(d)| => ConfigureOutput(Pins(d)[i]));
      DrivenConfigureOnly(setup);
      Some(Outcome(Motor(d, Initial), setup))
    else
      None
  }

  /** `cuurentSpeed()`: the recorded speed; the hardware is not read. */
  function CurrentSpeed(m: Motor): Byte {
    m.state.speed
  }

  /** `currentCommand()`: the recorded command; the hardware is not read. */
  function CurrentCommand(m: Motor): Command {
    m.state.command
  }

  /** The primitive a command selects; `speed` matters only to the moves. */
  function Dispatch(d: Driver, speed: Byte, command: Command): Effect {
    match command
    case RELEASE => Release(d)
    case BRAKE => Brake(d)
    case FORWARD => MoveForward(d, speed)
    case BACKWARD => MoveBackward(d, speed)
  }

  /** `run(speed, command)`. The motor records `command`; it records speed 0
      for RELEASE and BRAKE, `speed` for FORWARD, and for BACKWARD `speed`,
      except the single-PWM wiring which records `255 - speed`. A move writes
      its direction pins before its one duty cycle on the duty pin; a
      single-PWM release or brake and a TB6612 release also write the PWM pin
      last, after the direction pins. RELEASE and BRAKE write levels only.
      Only the motor's own pins are written. */
  function Run(m: Motor, speed: Byte, command: Command): (r: Outcome)
    ensures r.motor.driver == m.driver
    ensures CurrentCommand(r.motor) == command
    ensures Consistent(r.motor.state)
    ensures command == FORWARD ==> CurrentSpeed(r.motor) == speed
    ensures command == BACKWARD ==>
              CurrentSpeed(r.motor) == if m.driver.SinglePwm? then 255 - speed else speed
    ensures Idle(command) ==> LevelsOnly(m.driver, r.writes)
    ensures !Idle(command) ==> MoveOrdered(r.writes)
    ensures !Idle(command) ==>
              DirectionFirst(r.writes, DirPins(m.driver, command == FORWARD), DutyPin(m.driver, command == FORWARD))
    ensures command == RELEASE && !m.driver.TwoPwm? ==>
              DirectionFirst(r.writes, DirPins(m.driver, true), DutyPin(m.driver, true))
    ensures command == BRAKE && m.driver.SinglePwm? ==>
              DirectionFirst(r.writes, DirPins(m.driver, true), DutyPin(m.driver, true))
    ensures Driven(r.writes) <= PinSet(m.driver)
  {
    var e := Dispatch(m.driver, speed, command);
    Outcome(Motor(m.driver, e.state), e.writes)
  }

  /** RELEASE and BRAKE ignore the speed argument: state and writes agree. */
  lemma IdleIgnoresSpeed(m: Motor, s1: Byte, s2: Byte, command: Command)
    requires Idle(command)
    ensures Run(m, s1, command) == Run(m, s2, command)
  {
  }

  /** The writes and the new state depend on the driver, the command and the
      speed, never on the state the motor was in. */
  lemma RunForgetsPriorState(m1: Motor, m2: Motor, speed: Byte, command: Command)
    requires m1.driver == m2.driver
    ensures Run(m1, speed, command) == Run(m2, speed, command)
  {
  }

  /** Releasing twice repeats the same writes and the same recorded state. */
  lemma ReleaseIdempotent(m: Motor, s1: Byte, s2: Byte)
    ensures Run(Run(m, s1, RELEASE).motor, s2, RELEASE) == Run(m, s1, RELEASE)
  {
  }

  /** The single-PWM wiring records the complement of a backward speed, so
      the recorded speed never equals the requested one. */
  lemma SinglePwmBackwardComplement(m: Motor, speed: Byte)
    requires m.driver.SinglePwm?
    ensures CurrentSpeed(Run(m, speed, BACKWARD).motor) == 255 - speed
    ensures CurrentSpeed(Run(m, speed, BACKWARD).motor) != speed
    ensures Run(m, speed, BACKWARD).writes[1] == Analog(m.driver.pwm, 255 - speed)
  {
  }

  /** A TB6612 on pins 2, 3 and 9: constructed, driven forward at 200, then
      braked. The brake drives both direction pins HIGH and writes nothing
      to pin 9. */
  lemma Tb6612Scenario()
    ensures var built := Construct(Tb6612(2, 3, 9), {9});
            && built.Some?
            && built.value.writes == [ConfigureOutput(2), ConfigureOutput(3), ConfigureOutput(9)]
            && var fwd := Run(built.value.motor, 200, FORWARD);
            && fwd.writes == [Digital(2, LOW), Digital(3, HIGH), Analog(9, 200)]
            && CurrentSpeed(fwd.motor) == 200 && CurrentCommand(fwd.motor) == FORWARD
            && var brk := Run(fwd.motor, 0, BRAKE);
            && brk.writes == [Digital(2, HIGH), Digital(3, HIGH)]
            && CurrentSpeed(brk.motor) == 0 && CurrentCommand(brk.motor) == BRAKE
  {
    var built := Construct(Tb6612(2, 3, 9), {9});
    assert built.value.writes == [ConfigureOutput(2), ConfigureOutput(3), ConfigureOutput(9)];
  }
}

=== FILE: pattern.dfy ===
/** The pin pattern of each recorded state, per wiring, stated pin by pin;
    reading a pattern back into a state; and the agreement between the
    ordered writes of a call and the pattern of the state it records. */
module PinPattern {
  import opened MotorTypes
  import opened PinTrace
  import opened Topology
  import opened DCMotor

  /** Pin `p` currently carries signal `s`. */
  predicate At(img: Image, p: Pin, s: Signal) {
    p in img && img[p] == s
  }

  /** The pins of `d` show state `st`. Released and braking states have
      speed 0; in a move the duty pin carries the stored speed. A braking
      TB6612 constrains only its two direction pins. */
  predicate Shows(d: Driver, st: State, img: Image) {
    match d
    case SinglePwm(dir, pwm) => SinglePwmShows(dir, pwm, st, img)
    case TwoPwm(in1, in2) => TwoPwmShows(in1, in2, st, img)
    case Tb6612(dir1, dir2, pwm) => Tb6612Shows(dir1, dir2, pwm, st, img)
  }

  predicate SinglePwmShows(dir: Pin, pwm: Pin, st: State, img: Image) {
    match st.command
    case RELEASE => st.speed == 0 && At(img, dir, Steady(LOW)) && At(img, pwm, Steady(LOW))
    case BRAKE => st.speed == 0 && At(img, dir, Steady(HIGH)) && At(img, pwm, Steady(HIGH))
    case FORWARD => At(img, dir, Steady(LOW)) && At(img, pwm, Pulse(st.speed))
    case BACKWARD => At(img, dir, Steady(HIGH)) && At(img, pwm, Pulse(st.speed))
  }

  predicate TwoPwmShows(in1: Pin, in2: Pin, st: State, img: Image) {
    match st.command
    case RELEASE => st.speed == 0 && At(img, in1, Steady(LOW)) && At(img, in2, Steady(LOW))
    case BRAKE => st.speed == 0 && At(img, in1, Steady(HIGH)) && At(img, in2, Steady(HIGH))
    case FORWARD => At(img, in1, Steady(LOW)) && At(img, in2, Pulse(st.speed))
    case BACKWARD => At(img, in2, Steady(LOW)) && At(img, in1, Pulse(st.speed))
  }

  predicate Tb6612Shows(dir1: Pin, dir2: Pin, pwm: Pin, st: State, img: Image) {
    match st.command
    case RELEASE =>
      st.speed == 0 && At(img, dir1, Steady(LOW)) && At(img, dir2, Steady(LOW)) && At(img, pwm, Steady(HIGH))
    case BRAKE => st.speed == 0 && At(img, dir1, Steady(HIGH)) && At(img, dir2, Steady(HIGH))
    case FORWARD =>
      At(img, dir1, Steady(LOW)) && At(img, dir2, Steady(HIGH)) && At(img, pwm, Pulse(st.speed))
    case BACKWARD =>
      At(img, dir1, Steady(HIGH)) && At(img, dir2, Steady(LOW)) && At(img, pwm, Pulse(st.speed))
  }

  /** The duty cycle a pin carries, if it carries one. */
  function DutyAt(img: Image, p: Pin): Option<Byte> {
    if p in img && img[p].Pulse? then Some(img[p].duty) else None
  }

  /** Reads the state back from the pins of `d`, or `None` when they show
      no state of the wiring. */
  function Decode(d: Driver, img: Image): Option<State> {
    match d
    case SinglePwm(dir, pwm) =>
      if At(img, dir, Steady(LOW)) && At(img, pwm, Steady(LOW)) then Some(State(0, RELEASE))
      else if At(img, dir, Steady(HIGH)) && At(img, pwm, Steady(HIGH)) then Some(State(0, BRAKE))
      else if DutyAt(img, pwm).Some? && At(img, dir, Steady(LOW)) then Some(State(DutyAt(img, pwm).value, FORWARD))
      else if DutyAt(img, pwm).Some? && At(img, dir, Steady(HIGH)) then Some(State(DutyAt(img, pwm).value, BACKWARD))
      else None
    case TwoPwm(in1, in2) =>
      if At(img, in1, Steady(LOW)) && At(img, in2, Steady(LOW)) then Some(State(0, RELEASE))
      else if At(img, in1, Steady(HIGH)) && At(img, in2, Steady(HIGH)) then Some(State(0, BRAKE))
      else if DutyAt(img, in2).Some? && At(img, in1, Steady(LOW)) then Some(State(DutyAt(img, in2).value, FORWARD))
      else if DutyAt(img, in1).Some? && At(img, in2, Steady(LOW)) then Some(State(DutyAt(img, in1).value, BACKWARD))
      else None
    case Tb6612(dir1, dir2, pwm) =>
      if At(img, dir1, Steady(HIGH)) && At(img, dir2, Steady(HIGH)) then Some(State(0, BRAKE))
      else if At(img, dir1, Steady(LOW)) && At(img, dir2, Steady(LOW)) && At(img, pwm, Steady(HIGH)) then Some(State(0, RELEASE))
      else if DutyAt(img, pwm).Some? && At(img, dir1, Steady(LOW)) && At(img, dir2, Steady(HIGH)) then Some(State(DutyAt(img, pwm).value, FORWARD))
      else if DutyAt(img, pwm).Some? && At(img, dir1, Steady(HIGH)) && At(img, dir2, Steady(LOW)) then Some(State(DutyAt(img, pwm).value, BACKWARD))
      else None
  }

  /** Decoding is exactly the inverse of the pattern: the pins read back as
      `st` if and only if they show `st`. */
  lemma DecodeInverse(d: Driver, st: State, img: Image)
    ensures Decode(d, img) == Some(st) <==> Shows(d, st, img)
  {
  }

  /** Pins show at most one state. */
  lemma ShowsUnique(d: Driver, st1: State, st2: State, img: Image)
    requires Shows(d, st1, img) && Shows(d, st2, img)
    ensures st1 == st2
  {
    DecodeInverse(d, st1, img);
    DecodeInverse(d, st2, img);
  }

  /** Whether the pattern of `st` fixes every pin of `d`: all states except
      a braking TB6612, whose PWM pin is not written by the brake. */
  predicate FixesAllPins(d: Driver, st: State) {
    !(d.Tb6612? && st.command == BRAKE)
  }

  /** Where the pattern fixes every pin, two images that show the same state
      agree on all of the driver's pins. */
  lemma ShowsDeterminesPins(d: Driver, st: State, img1: Image, img2: Image)
    requires FixesAllPins(d, st)
    requires Shows(d, st, img1) && Shows(d, st, img2)
    ensures forall p | p in PinSet(d) :: p in img1 && p in img2 && img1[p] == img2[p]
  {
  }

  /** Unpacks `DistinctPins` into the pairwise facts the proofs below use. */
  lemma DistinctPinsFacts(d: Driver)
    requires DistinctPins(d)
    ensures d.SinglePwm? ==> d.dir != d.pwm
    ensures d.TwoPwm? ==> d.in1 != d.in2
    ensures d.Tb6612? ==> d.dir1 != d.dir2 && d.dir1 != d.pwm && d.dir2 != d.pwm
  {
    assert Pins(d)[0] != Pins(d)[1];
    if d.Tb6612? {
      assert Pins(d)[0] != Pins(d)[2];
      assert Pins(d)[1] != Pins(d)[2];
    }
  }

  /** Replays a primitive's two or three writes one by one. */
  lemma ApplyEffect(img: Image, e: Effect)
    requires 2 <= |e.writes| <= 3
    ensures |e.writes| == 2 ==> Apply(img, e.writes) == Put(Put(img, e.writes[0]), e.writes[1])
    ensures |e.writes| == 3 ==> Apply(img, e.writes) == Put(Put(Put(img, e.writes[0]), e.writes[1]), e.writes[2])
  {
    if |e.writes| == 2 {
      assert e.writes == [e.writes[0], e.writes[1]];
      ApplyPair(img, e.writes[0], e.writes[1]);
    } else {
      assert e.writes == [e.writes[0], e.writes[1], e.writes[2]];
      ApplyTriple(img, e.writes[0], e.writes[1], e.writes[2]);
    }
  }

  /** The release writes leave the release pattern, from any prior image. */
  lemma ReleaseShows(d: Driver, img: Image)
    requires DistinctPins(d)
    ensures Shows(d, Release(d).state, Apply(img, Release(d).writes))
  {
    DistinctPinsFacts(d);
    ApplyEffect(img, Release(d));
  }

  /** The brake writes leave the brake pattern, from any prior image. */
  lemma BrakeShows(d: Driver, img: Image)
    requires DistinctPins(d)
    ensures Shows(d, Brake(d).state, Apply(img, Brake(d).writes))
  {
    DistinctPinsFacts(d);
    ApplyEffect(img, Brake(d));
  }

  /** The forward writes leave the forward pattern, from any prior image. */
  lemma ForwardShows(d: Driver, speed: Byte, img: Image)
    requires DistinctPins(d)
    ensures Shows(d, MoveForward(d, speed).state, Apply(img, MoveForward(d, speed).writes))
  {
    DistinctPinsFacts(d);
    ApplyEffect(img, MoveForward(d, speed));
  }

  /** The backward writes leave the backward pattern, from any prior image. */
  lemma BackwardShows(d: Driver, speed: Byte, img: Image)
    requires DistinctPins(d)
    ensures Shows(d, MoveBackward(d, speed).state, Apply(img, MoveBackward(d, speed).writes))
  {
    DistinctPinsFacts(d);
    ApplyEffect(img, MoveBackward(d, speed));
  }

  /** A call's writes, replayed over any prior pin image, leave the pins
      showing the state the call records, provided the pins are distinct. */
  lemma RunShows(m: Motor, speed: Byte, command: Command, img: Image)
    requires DistinctPins(m.driver)
    ensures Shows(m.driver, Run(m, speed, command).motor.state, Apply(img, Run(m, speed, command).writes))
  {
    match command
    case RELEASE => ReleaseShows(m.driver, img);
    case BRAKE => BrakeShows(m.driver, img);
    case FORWARD => ForwardShows(m.driver, speed, img);
    case BACKWARD => BackwardShows(m.driver, speed, img);
  }

  /** The accessors report what the pins show: after a call, reading the
      pins back gives exactly the recorded state. */
  lemma RunDecodes(m: Motor, speed: Byte, command: Command, img: Image)
    requires DistinctPins(m.driver)
    ensures Decode(m.driver, Apply(img, Run(m, speed, command).writes)) == Some(Run(m, speed, command).motor.state)
  {
    RunShows(m, speed, command, img);
    DecodeInverse(m.driver, Run(m, speed, command).motor.state, Apply(img, Run(m, speed, command).writes));
  }

  /** A freshly constructed motor records RELEASE, but construction only
      configures the pins, so no pin shows the release pattern (nor any
      other): the recorded state agrees with the pins only after the first
      call. */
  lemma ConstructNotShown(d: Driver, capable: set<Pin>)
    requires PwmPins(d) <= capable
    ensures var built := Construct(d, capable);
            && built.Some?
            && CurrentCommand(built.value.motor) == RELEASE
            && CurrentSpeed(built.value.motor) == 0
            && Apply(map[], built.value.writes) == map[]
            && Decode(d, Apply(map[], built.value.writes)) == None
  {
    var built := Construct(d, capable);
    assert Apply(map[], built.value.writes).Keys == {};
  }

  /** A TB6612 brake leaves the PWM pin with whatever signal it had. */
  lemma Tb6612BrakeKeepsPwm(m: Motor, speed: Byte, img: Image)
    requires m.driver.Tb6612? && DistinctPins(m.driver)
    ensures var after := Apply(img, Run(m, speed, BRAKE).writes);
            (m.driver.pwm in after <==> m.driver.pwm in img)
            && (m.driver.pwm in img ==> after[m.driver.pwm] == img[m.driver.pwm])
  {
    DistinctPinsFacts(m.driver);
  }
}

=== FILE: session.dfy ===
/** A motor's lifetime: the calls a program makes through `run`, one after
    another, each starting from the motor the previous one left. */
module Session {
  import opened MotorTypes
  import opened PinTrace
  import opened Topology
  import opened DCMotor
  import opened PinPattern

  /** One `run(speed, command)` call. */
  datatype Call = Call(speed: Byte, command: Command)

  /** Runs the calls in order and concatenates their writes. The motor keeps
      its wiring, records what the last call records (or is unchanged when
      there are no calls), and only its own pins are written. */
  function Replay(m: Motor, calls: seq<Call>): (r: Outcome)
    ensures r.motor.driver == m.driver
    ensures |calls| == 0 ==> r.motor == m && r.writes == []
    ensures |calls| > 0 ==>
              r.motor.state == Dispatch(m.driver, calls[|calls| - 1].speed, calls[|calls| - 1].command).state
    ensures Driven(r.writes) <= PinSet(m.driver)
    decreases |calls|
  {
    if |calls| == 0 then Outcome(m, [])
    else
      var first := Run(m, calls[0].speed, calls[0].command);
      var rest := Replay(first.motor, calls[1..]);
      DrivenAppend(first.writes, rest.writes);
      Outcome(rest.motor, first.writes + rest.writes)
  }

  lemma ConsAppend<T>(a: seq<T>, b: seq<T>)
    requires |a| > 0
    ensures (a + b)[0] == a[0] && (a + b)[1..] == a[1..] + b
  {
  }

  lemma AppendAssociative<T>(x: seq<T>, y: seq<T>, z: seq<T>)
    ensures x + (y + z) == (x + y) + z
  {
  }

  /** One step of `Replay`: the first call, then the rest from where it left the motor. */
  lemma ReplayStep(m: Motor, calls: seq<Call>)
    requires |calls| > 0
    ensures var first := Run(m, calls[0].speed, calls[0].command);
            var rest := Replay(first.motor, calls[1..]);
            Replay(m, calls) == Outcome(rest.motor, first.writes + rest.writes)
  {
  }

  /** Replaying `a` then `b` is replaying `a + b`. */
  lemma {:induction false} ReplayAppend(m: Motor, a: seq<Call>, b: seq<Call>)
    ensures var ra := Replay(m, a);
            var rb := Replay(ra.motor, b);
            Replay(m, a + b) == Outcome(rb.motor, ra.writes + rb.writes)
    decreases |a|
  {
    if |a| == 0 {
      assert a + b == b;
    } else {
      var ab := a + b;
      ConsAppend(a, b);
      var first := Run(m, a[0].speed, a[0].command);
      var ra := Replay(first.motor, a[1..]);
      var rb := Replay(ra.motor, b);
      ReplayAppend(first.motor, a[1..], b);
      ReplayStep(m, ab);
      ReplayStep(m, a);
      AppendAssociative(first.writes, ra.writes, rb.writes);
    }
  }

  /** The state a motor records is never inconsistent: after any nonempty
      run of calls, speed is 0 when released or braking. */
  lemma ReplayConsistent(m: Motor, calls: seq<Call>)
    requires |calls| > 0
    ensures Consistent(Replay(m, calls).motor.state)
  {
  }

  /** Over a motor's whole life, from construction through any calls
      (none included), a released or braking motor records speed 0. */
  lemma LifetimeConsistent(d: Driver, capable: set<Pin>, calls: seq<Call>)
    requires PwmPins(d) <= capable
    ensures Construct(d, capable).Some?
    ensures Consistent(Replay(Construct(d, capable).value.motor, calls).motor.state)
  {
    if |calls| > 0 {
      ReplayConsistent(Construct(d, capable).value.motor, calls);
    }
  }

  /** After any nonempty run of calls, from any prior pin image, the pins
      show the state the motor records. */
  lemma {:induction false} ReplayShows(m: Motor, calls: seq<Call>, img: Image)
    requires DistinctPins(m.driver) && |calls| > 0
    ensures Shows(m.driver, Replay(m, calls).motor.state, Apply(img, Replay(m, calls).writes))
    decreases |calls|
  {
    var first := Run(m, calls[0].speed, calls[0].command);
    var rest := Replay(first.motor, calls[1..]);
    ApplyAppend(img, first.writes, rest.writes);
    RunShows(m, calls[0].speed, calls[0].command, img);
    if |calls| > 1 {
      ReplayShows(first.motor, calls[1..], Apply(img, first.writes));
    }
  }

  /** The accessors agree with the hardware: after any nonempty run of calls,
      reading the motor's pins back gives exactly the recorded state. */
  lemma ReplayDecodes(m: Motor, calls: seq<Call>, img: Image)
    requires DistinctPins(m.driver) && |calls| > 0
    ensures Decode(m.driver, Apply(img, Replay(m, calls).writes)) == Some(Replay(m, calls).motor.state)
  {
    ReplayShows(m, calls, img);
    DecodeInverse(m.driver, Replay(m, calls).motor.state, Apply(img, Replay(m, calls).writes));
  }

  /** Except for a braking TB6612, the recorded state fixes every pin: two
      histories on the same wiring that end in the same state, from any
      prior pin images, leave the same signal on every pin of the motor. */
  lemma ReplayPinsDetermined(m1: Motor, calls1: seq<Call>, img1: Image,
                             m2: Motor, calls2: seq<Call>, img2: Image)
    requires m1.driver == m2.driver && DistinctPins(m1.driver)
    requires |calls1| > 0 && |calls2| > 0
    requires Replay(m1, calls1).motor.state == Replay(m2, calls2).motor.state
    requires FixesAllPins(m1.driver, Replay(m1, calls1).motor.state)
    ensures var after1 := Apply(img1, Replay(m1, calls1).writes);
            var after2 := Apply(img2, Replay(m2, calls2).writes);
            forall p | p in PinSet(m1.driver) :: p in after1 && p in after2 && after1[p] == after2[p]
  {
    ReplayShows(m1, calls1, img1);
    ReplayShows(m2, calls2, img2);
    ShowsDeterminesPins(m1.driver, Replay(m1, calls1).motor.state,
                        Apply(img1, Replay(m1, calls1).writes), Apply(img2, Replay(m2, calls2).writes));
  }

  /** A TB6612 whose last call is BRAKE carries on its PWM pin whatever the
      calls before the brake left there. */
  lemma Tb6612BrakeRemembersPwm(m: Motor, calls: seq<Call>, speed: Byte, img: Image)
    requires m.driver.Tb6612? && DistinctPins(m.driver)
    ensures var before := Apply(img, Replay(m, calls).writes);
            var after := Apply(img, Replay(m, calls + [Call(speed, BRAKE)]).writes);
            (m.driver.pwm in after <==> m.driver.pwm in before)
            && (m.driver.pwm in before ==> after[m.driver.pwm] == before[m.driver.pwm])
  {
    var ra := Replay(m, calls);
    ReplayAppend(m, calls, [Call(speed, BRAKE)]);
    var rb := Replay(ra.motor, [Call(speed, BRAKE)]);
    assert [Call(speed, BRAKE)][1..] == [];
    assert rb.writes == Run(ra.motor, speed, BRAKE).writes + [];
    ApplyAppend(img, ra.writes, rb.writes);
    Tb6612BrakeKeepsPwm(ra.motor, speed, Apply(img, ra.writes));
  }

  /** Running one call then braking: the PWM pin of a TB6612 keeps what the
      first call left on it. */
  lemma Tb6612CallThenBrake(m: Motor, call: Call)
    requires m.driver.Tb6612? && DistinctPins(m.driver) && call.command != BRAKE
    ensures var r := Replay(m, [call, Call(0, BRAKE)]);
            && r.motor.state == State(0, BRAKE)
            && At(Apply(map[], r.writes), m.driver.pwm, Apply(map[], Run(m, call.speed, call.command).writes)[m.driver.pwm])
  {
    var first := Run(m, call.speed, call.command);
    var pwm := m.driver.pwm;
    assert pwm in Driven(first.writes);
    var before := Apply(map[], first.writes);
    assert pwm in before;
    assert [call][1..] == [];
    assert Replay(m, [call]).writes == first.writes + [];
    assert first.writes + [] == first.writes;
    assert [call] + [Call(0, BRAKE)] == [call, Call(0, BRAKE)];
    Tb6612BrakeRemembersPwm(m, [call], 0, map[]);
  }

  /** So for a TB6612 the recorded state does not fix the PWM pin: two
      histories that both end braking leave it pulsing at 200 in one case
      and held HIGH in the other. */
  lemma Tb6612BrakeStateHidesPwm()
    ensures var m := Motor(Tb6612(2, 3, 9), Initial);
            var r1 := Replay(m, [Call(200, FORWARD), Call(0, BRAKE)]);
            var r2 := Replay(m, [Call(0, RELEASE), Call(0, BRAKE)]);
            && r1.motor.state == r2.motor.state == State(0, BRAKE)
            && At(Apply(map[], r1.writes), 9, Pulse(200))
            && At(Apply(map[], r2.writes), 9, Steady(HIGH))
  {
    var m := Motor(Tb6612(2, 3, 9), Initial);
    assert DistinctPins(m.driver) by {
      assert Pins(m.driver) == [2, 3, 9];
    }
    var forward := Run(m, 200, FORWARD).writes;
    ApplyTriple(map[], forward[0], forward[1], forward[2]);
    assert forward == [forward[0], forward[1], forward[2]];
    Tb6612CallThenBrake(m, Call(200, FORWARD));
    var release := Run(m, 0, RELEASE).writes;
    ApplyTriple(map[], release[0], release[1], release[2]);
    assert release == [release[0], release[1], release[2]];
    Tb6612CallThenBrake(m, Call(0, RELEASE));
  }
}

=== FILE: trace.dfy ===
/** The meaning of a write trace: the output each pin was last commanded to
    hold. A trace is replayed over an image of the pins, one write at a time. */
module PinTrace {
  import opened MotorTypes

  /** What a pin was last commanded to output: a steady level or a duty cycle. */
  datatype Signal = Steady(level: Level) | Pulse(duty: Byte)

  /** The commanded output of every pin written so far. */
  type Image = map<Pin, Signal>

  /** The effect of one write; configuring a pin as an output drives nothing. */
  function Put(img: Image, w: Write): Image {
    match w
    case ConfigureOutput(_) => img
    case Digital(p, l) => img[p := Steady(l)]
    case Analog(p, d) => img[p := Pulse(d)]
  }

  /** The pins a trace drives with a level or a duty cycle. */
  function Driven(ws: seq<Write>): set<Pin>
    decreases |ws|
  {
    if |ws| == 0 then {}
    else (if ws[0].ConfigureOutput? then {} else {ws[0].pin}) + Driven(ws[1..])
  }

  lemma {:induction false} DrivenAppend(a: seq<Write>, b: seq<Write>)
    ensures Driven(a + b) == Driven(a) + Driven(b)
    decreases |a|
  {
    if |a| == 0 {
      assert a + b == b;
    } else {
      assert (a + b)[1..] == a[1..] + b;
      DrivenAppend(a[1..], b);
    }
  }

  /** Configuring pins drives none of them. */
  lemma {:induction false} DrivenConfigureOnly(ws: seq<Write>)
    requires forall i | 0 <= i < |ws| :: ws[i].ConfigureOutput?
    ensures Driven(ws) == {}
    decreases |ws|
  {
    if |ws| > 0 {
      DrivenConfigureOnly(ws[1..]);
    }
  }

  lemma DrivenSingle(w: Write)
    requires !w.ConfigureOutput?
    ensures Driven([w]) == {w.pin}
  {
    var ws := [w];
    assert ws[1..] == [];
    assert Driven(ws) == (if ws[0].ConfigureOutput? then {} else {ws[0].pin}) + Driven(ws[1..]);
  }

  lemma DrivenPair(w1: Write, w2: Write)
    requires !w1.ConfigureOutput? && !w2.ConfigureOutput?
    ensures Driven([w1, w2]) == {w1.pin, w2.pin}
  {
    var ws := [w1, w2];
    assert ws[1..] == [w2];
    DrivenSingle(w2);
    assert Driven(ws) == (if ws[0].ConfigureOutput? then {} else {ws[0].pin}) + Driven(ws[1..]);
  }

  lemma DrivenTriple(w1: Write, w2: Write, w3: Write)
    requires !w1.ConfigureOutput? && !w2.ConfigureOutput? && !w3.ConfigureOutput?
    ensures Driven([w1, w2, w3]) == {w1.pin, w2.pin, w3.pin}
  {
    var ws := [w1, w2, w3];
    assert ws[1..] == [w2, w3];
    DrivenPair(w2, w3);
    assert Driven(ws) == (if ws[0].ConfigureOutput? then {} else {ws[0].pin}) + Driven(ws[1..]);
  }

  /** Replays a trace over an image. The pins the trace drives are added to
      the image, and every other pin keeps its signal. */
  function Apply(img: Image, ws: seq<Write>): (r: Image)
    ensures r.Keys == img.Keys + Driven(ws)
    ensures forall p :: p in img && p !in Driven(ws) ==> r[p] == img[p]
    decreases |ws|
  {
    if |ws| == 0 then img
    else Apply(Put(img, ws[0]), ws[1..])
  }

  /** Replaying two traces one after the other is replaying their concatenation. */
  lemma {:induction false} ApplyAppend(img: Image, a: seq<Write>, b: seq<Write>)
    ensures Apply(img, a + b) == Apply(Apply(img, a), b)
    decreases |a|
  {
    if |a| == 0 {
      assert a + b == b;
    } else {
      assert (a + b)[0] == a[0];
      assert (a + b)[1..] == a[1..] + b;
      ApplyAppend(Put(img, a[0]), a[1..], b);
    }
  }

  lemma ApplyPair(img: Image, w1: Write, w2: Write)
    ensures Apply(img, [w1, w2]) == Put(Put(img, w1), w2)
  {
    assert [w1, w2][1..] == [w2];
    assert [w2][1..] == [];
  }

  lemma ApplyTriple(img: Image, w1: Write, w2: Write, w3: Write)
    ensures Apply(img, [w1, w2, w3]) == Put(Put(Put(img, w1), w2), w3)
  {
    assert [w1, w2, w3][1..] == [w2, w3];
    ApplyPair(Put(img, w1), w2, w3);
  }
}

=== FILE: types.dfy ===
/** The vocabulary shared by the motor interface and its three wiring
    topologies: 8-bit quantities, pin levels, the command enumeration, the
    recorded motor state and the I/O calls a driver makes. */
module MotorTypes {

  /** An unsigned 8-bit value (`uint8_t`): speeds, duty cycles, pin numbers. */
  type Byte = b: int | 0 <= b < 256

  /** A pin number; every pin is bound as a `uint8_t` template argument. */
  type Pin = Byte

  /** A binary output level. */
  datatype Level = LOW | HIGH

  /** The closed command enumeration, in declaration order. */
  datatype Command = RELEASE | BRAKE | FORWARD | BACKWARD

  /** The two commands that carry no magnitude. */
  predicate Idle(c: Command) {
    c == RELEASE || c == BRAKE
  }

  /** What a motor remembers: the last stored speed and the last command. */
  datatype State = State(speed: Byte, command: Command)

  /** A released or braking motor records speed 0. */
  predicate Consistent(st: State) {
    Idle(st.command) ==> st.speed == 0
  }

  /** One call into the microcontroller's I/O layer, as recorded in a trace. */
  datatype Write =
    | ConfigureOutput(pin: Pin)        // pinMode(pin, OUTPUT)
    | Digital(pin: Pin, level: Level)  // digitalWrite(pin, level)
    | Analog(pin: Pin, duty: Byte)     // analogWrite(pin, duty)

  datatype Option<+T> = None | Some(value: T)
}
